=== FILE: README.md ===
# Postcard exhibition: a state model of the gallery and editor

The postcard exhibition is a single page. It shows a gallery of postcards
with a navigation list, and it turns to an editable back side where a
message can be typed and exported as two images. Its logic sits in the
event handlers of `works/Postcard_exhibition/js/script.js`. This project
models those handlers as one immutable page state and one pure transition
per event, and proves what each event does and what every reachable page
satisfies.

Files:

- `wrappers.dfy` (`Wrappers`): `Option`, the model of JavaScript's `undefined`.
- `gallery.dfy` (`Gallery`):
  - the postcard record and the displayed image/title/description;
  - the wheel handler's circular index arithmetic;
  - the navigation list's "active" flags;
  - the start of an image load.
- `editor.dfy` (`Editor`):
  - the editable region's child list and the stamp-spacer fix-up, both as
    written and corrected;
  - the clear action;
  - the font-size to line-height rule;
  - the visuals of the two-state edit mode.
- `export.dfy` (`Export`):
  - the `\s` whitespace class of ECMAScript and the export file names;
  - which downloads and alerts one export produces.
- `exhibition.dfy` (`Exhibition`):
  - the page state `Page` and the events;
  - `Step` and `Run`;
  - the invariant `Inv`, proved for every page reachable from start-up;
  - the per-event lemmas.

The model's own terms:

- The 400 ms `setTimeout` that releases the animation lock is the `Unlock`
  event. `timers` counts the armed timers, and the invariant shows it is 1
  exactly while the lock is held.
- Each started image load is a record in `pendingLoads`. `ImageLoaded(k)`
  finishes the k-th one, in any order.
- The clear dialog's answer is the boolean of `ClearClick`. Alerts change
  no state.
- The start-up fetch is the `DataLoaded` event. Its payload is `None` when
  the fetch or the JSON parse fails. The event takes effect once, while the
  phase is `Fetching`.
- Editable-region children are `Node`s. The spacer present at start-up
  (`OriginalSpacer`) is kept apart from spacers the input handler creates
  (`CreatedSpacer`), because the handler only ever compares against the
  first.

Three behaviours of the code that are easy to misread:

- An empty postcard list is not a successful load. The first image load
  reads `postcards[0]`, which is `undefined`, and throws. Start-up catches
  this like a failed fetch: it shows the error title and never binds the
  handlers (`Exhibition.Init`).
- The wheel goes to the previous entry for every delta that is not
  positive, zero included.
- The original spacer is not always the one in front after an edit. Once the original spacer
  has been deleted, each input event prepends a new spacer. These spacers
  pile up until a confirmed clear puts the original back (see Findings).

The page markup is not part of this model. `Exhibition.Initial` assumes the
following start-up state:

- viewing visuals and no rendered navigation entries;
- the placeholder display;
- the original spacer as the region's only child.

## Model

| member | source | states |
|---|---|---|
| Gallery.WheelTarget | works/Postcard_exhibition/js/script.js:228-235 | for an index in range, a positive delta gives (i+1) mod n, any other delta (i-1+n) mod n, and the result stays in [0, n) |
| Gallery.WheelStepsAreInverse | works/Postcard_exhibition/js/script.js:228-235 | one step down then one up, or up then down, returns to the starting entry |
| Gallery.RenderNav | works/Postcard_exhibition/js/script.js:125-136 | a full render has one entry per postcard and marks exactly the current index active |
| Gallery.MoveActive | works/Postcard_exhibition/js/script.js:142-144 | the old entry loses the active flag, the new one gains it, no other entry changes, and missing entries are skipped |
| Gallery.MoveActiveKeepsOneActive | works/Postcard_exhibition/js/script.js:142-144 | moving the flag keeps exactly one active entry, now the new index |
| Editor.Without | works/Postcard_exhibition/js/script.js:74 | moving a node removes it from its old place: the other children keep their multiplicities and no other node appears |
| Editor.WithoutConcat | works/Postcard_exhibition/js/script.js:74 | removal distributes over concatenation, so the other children keep their relative order |
| Editor.FixSpacer | works/Postcard_exhibition/js/script.js:71-83 | after the input handler the first child is a spacer. A present original spacer becomes first, and the others keep their relative order with nothing added or lost. An absent one makes the handler prepend one new spacer and change nothing else |
| Editor.FixSpacerAccumulates | works/Postcard_exhibition/js/script.js:72-80 | with the original spacer gone, two input events prepend two distinct new spacers |
| Editor.FixSpacerNotIdempotent | works/Postcard_exhibition/js/script.js:72-80 | a concrete list on which a second input event changes the already fixed list |
| Editor.FixBoundSpacer | works/Postcard_exhibition/js/script.js:72-80 | corrected fix-up: the handler's reference is re-bound to the spacer it creates, and that spacer is first |
| Editor.FixBoundSpacerIdempotent | works/Postcard_exhibition/js/script.js:72-80 | with re-binding, a second fix-up of a fixed list is the identity |
| Editor.VisualsFor | works/Postcard_exhibition/js/script.js:107-122 | in each mode exactly one of info panel and tool panel is shown; editing shows tools, "exit" label, active button, flipped card |
| Editor.VisualsDetermineMode | works/Postcard_exhibition/js/script.js:109-121 | the two modes' visuals differ, so the visuals tell the mode |
| Export.StripWhitespace | works/Postcard_exhibition/js/script.js:171 | the stem has no `\s` character, keeps every other character of the title, and equals a whitespace-free title |
| Export.StripWhitespaceConcat | works/Postcard_exhibition/js/script.js:171 | stripping distributes over concatenation, so kept characters stay in title order |
| Export.StripWhitespaceIdempotent | works/Postcard_exhibition/js/script.js:171 | stripping twice is stripping once |
| Export.StripAroundSpace | works/Postcard_exhibition/js/script.js:171 | two whitespace-free words joined by one space strip to the two words written together |
| Export.FrontName | works/Postcard_exhibition/js/script.js:176 | the front name is the stripped title plus `_正面.png` and contains no whitespace |
| Export.BackName | works/Postcard_exhibition/js/script.js:215 | the back name is the stripped title plus `_背面.png` and contains no whitespace |
| Export.FrontAndBackNamesDiffer | works/Postcard_exhibition/js/script.js:165-224 | the two downloads of one export share their stem and have different names |
| Export.SpringDayNames | works/Postcard_exhibition/js/script.js:171-176 | "Spring Day" exports as `SpringDay` followed by the front suffix `_正面.png` and the back suffix `_背面.png` |
| Export.ExportCard | works/Postcard_exhibition/js/script.js:165-224 | without the rasteriser: no download and one alert. Otherwise the front is downloaded first. Then either the back is downloaded with no alert, or rasterising fails with exactly one alert. No download name contains whitespace |
| Exhibition.Initial | works/Postcard_exhibition/js/script.js:2-5 | start-up: no postcards, lock free, viewing mode, the original spacer in place |
| Exhibition.Init | works/Postcard_exhibition/js/script.js:25-44 | a failed fetch only marks start-up failed and writes the error title. An empty list does the same after resetting postcards, navigation, index and mode to empty, empty, 0 and viewing. A non-empty list gives index 0 with entry 0 alone active, viewing mode, the first load started, the font rule applied and handlers bound. Nothing else changes on any path: no timer, no editor or display change |
| Exhibition.ChangeIndex | works/Postcard_exhibition/js/script.js:138-150 | with the lock held nothing changes. Otherwise the lock is taken, the index set and the active flag moved from the old entry to the new one. The record's load starts and one unlock timer is armed, except for an index with no record, where neither happens. Nothing else changes |
| Exhibition.OnWheel | works/Postcard_exhibition/js/script.js:226-237 | ignored with no postcards or with the lock held; otherwise requests the circular next/previous index and takes the lock |
| Exhibition.OnNavClick | works/Postcard_exhibition/js/script.js:133 | clicking the active entry changes nothing. Clicking another entry is exactly an index change: unless the lock is held, the index and the active flag move, the lock is taken with one timer armed, that record's image load starts, and the editor is untouched |
| Exhibition.OnUnlock | works/Postcard_exhibition/js/script.js:149 | a firing timer releases the lock and touches nothing else |
| Exhibition.OnImageLoaded | works/Postcard_exhibition/js/script.js:152-162 | a finished load swaps in image, title and description of its captured record together and leaves the pending list; nothing else changes |
| Exhibition.OnEditToggle | works/Postcard_exhibition/js/script.js:107-123 | flips the mode, shows the new mode's visuals, re-applies the font rule on entering edit mode, and changes nothing else |
| Exhibition.OnSizeInput | works/Postcard_exhibition/js/script.js:60-62 | records the control value; once bound, applies it with line height twice the size |
| Exhibition.OnInput | works/Postcard_exhibition/js/script.js:70-84 | once bound, an edit is followed by the spacer fix-up so a spacer is first; before binding the edit stands as is |
| Exhibition.OnClear | works/Postcard_exhibition/js/script.js:86-92 | once bound, a confirmed clear leaves only the original spacer; otherwise nothing changes |
| Exhibition.OnExport | works/Postcard_exhibition/js/script.js:94-95 | no handler before start-up succeeds. Once loaded, the export is of the current postcard: its front is downloaded first, then its back when rasterising succeeds. A missing rasteriser gives no downloads and one alert, and no name holds whitespace |
| Exhibition.InitialInv | works/Postcard_exhibition/js/script.js:2-5 | the start-up page satisfies the invariant |
| Exhibition.StepPreservesInv | works/Postcard_exhibition/js/script.js:46-237 | every event keeps the invariant |
| Exhibition.RunPreservesInv | works/Postcard_exhibition/js/script.js:46-237 | every event sequence keeps the invariant |
| Exhibition.ReachableInv | works/Postcard_exhibition/js/script.js:25-237 | on every reachable page: once loaded, the index is in range and only its entry is active. The lock is held exactly while one timer is armed. The display is the placeholder or one whole record. Exactly one panel is shown. Once loaded, the typography is the font-size control's, with the line height twice the font size |
| Exhibition.WheelFromReachable | works/Postcard_exhibition/js/script.js:226-237 | from a reachable loaded page with the lock free, a wheel event selects the circular neighbour, arms one timer and starts its load. Mode, display and editor are unchanged |
| Exhibition.OnlyUnlockReleases | works/Postcard_exhibition/js/script.js:139-149 | a held lock stays held under every event but the unlock timer |
| Exhibition.ActiveNavClickIsNoOp | works/Postcard_exhibition/js/script.js:133 | clicking the entry at the current index leaves the whole page unchanged |
| Exhibition.ToggleTwiceRestores | works/Postcard_exhibition/js/script.js:107-123 | on a reachable, loaded page, two toggles give back exactly the same page: the typography re-applied on entry is the one the font-size control already set |
| Exhibition.SpacersAccumulate | works/Postcard_exhibition/js/script.js:72-80 | with the original spacer gone, n input events prepend n newly created spacers |
| Exhibition.ClearRestoresOriginal | works/Postcard_exhibition/js/script.js:88-91 | a confirmed clear leaves exactly the original spacer, and a following unchanged edit adds nothing |
| Exhibition.TwoCardExample | works/Postcard_exhibition/js/script.js:226-237 | with records A and B: A is shown, then wheel-down shows B, then another wheel-down wraps back to A |
| Exhibition.LateLoadShowsStaleRecord | works/Postcard_exhibition/js/script.js:152-161 | loads finishing out of order can leave a whole record on screen that is not the current one |

## Left out

- The network fetch and JSON parsing of start-up are left out. They are
  reduced to the `DataLoaded` payload, and its error text goes only to the
  console.
- The font family, colour and indent controls are left out. Each is a
  direct style or class write with nothing to verify.
- The information button's alert is left out. It changes no state.
- Rasterisation is left out: the library, the off-screen clone, its style
  overrides, the copied line-height variable and `toDataURL`. These are a
  foreign library and browser rendering. Only the outcome is modelled: the
  library missing, succeeding or failing.
- The timer durations are left out. The 400 ms delay is the `Unlock` event.
- `parseInt` is left out. The font size is an integer input, so a value
  that does not parse (NaN) is not modelled.
- Editor.FixSpacer: treats "the original spacer is in the region" as "it is
  a child". The source's `contains` also finds a spacer nested inside a
  child and moves it to the front without creating a new one. The flat
  child list cannot hold nested nodes, so that case is not modelled. The
  accumulation finding needs the original spacer to be truly gone from the
  region.
- Missing page elements are left out. Every element the script looks up is
  assumed present, so its `if (element)` guards are always taken.
- CSS and DOM element creation are left out, except the navigation
  list's active flags.
- Wheel deltas that are NaN are left out, since `real` has no NaN. The
  source sends such a delta to the previous entry, like zero.
- Failed or stalled image loads are left out. Such a load never fires its
  completion event and stays pending, which is what the source does.

## Findings

| source | as written | input that shows it | evidently intended | confidence | as-written member | corrected member |
|---|---|---|---|---|---|---|
| works/Postcard_exhibition/js/script.js:72-80 | the input handler compares against the spacer found at start-up and never re-binds it after creating a new one | delete the spacer (an input event) and type one character: the region starts with two created spacers, one more per later input event | re-bind the handler's reference to the created spacer, so that one spacer stays pinned and a fix-up of a fixed list changes nothing | medium, not executed | Editor.FixSpacerNotIdempotent | Editor.FixBoundSpacerIdempotent |

The page model `Exhibition` keeps the as-written handler (`Editor.FixSpacer`),
so that the accumulation it causes shows up in `Exhibition.SpacersAccumulate`.
`Editor.FixBoundSpacer` is the corrected fix-up, proved idempotent on its own.

=== FILE: editor.dfy ===
/** The message editor: the child list of the editable region with its
    pinned "stamp spacer", the clear action, the font-size rule and the
    visuals of the two-state edit mode. */
module Editor {

  /** A child of the editable region. `OriginalSpacer` is the spacer element
      present in the page at start-up, the one the input handler and the
      clear action hold a reference to; `CreatedSpacer(serial)` is a spacer
      element made by the input handler (the `serial`-th one); `Typed(id)`
      is any other node the user's editing produced. */
  datatype Node = OriginalSpacer | CreatedSpacer(serial: nat) | Typed(id: nat)

  predicate IsSpacer(n: Node)
  {
    n.OriginalSpacer? || n.CreatedSpacer?
  }

  /** The child list with every occurrence of `x` removed, the others kept
      in their order. */
  function Without(c: seq<Node>, x: Node): (r: seq<Node>)
    ensures multiset(r) == multiset(c)[x := 0]
    ensures forall n :: n in r <==> n in c && n != x
    ensures |r| <= |c|
    decreases |c|
  {
    if c == [] then []
    else if c[0] == x then (assert c == [c[0]] + c[1..]; Without(c[1..], x))
    else (assert c == [c[0]] + c[1..]; [c[0]] + Without(c[1..], x))
  }

  /** Removing works piecewise, so the kept children stay in their order. */
  lemma {:induction false} WithoutConcat(a: seq<Node>, b: seq<Node>, x: Node)
    ensures Without(a + b, x) == Without(a, x) + Without(b, x)
    decreases |a|
  {
    if a != [] {
      assert (a + b)[0] == a[0];
      assert (a + b)[1..] == a[1..] + b;
      WithoutConcat(a[1..], b, x);
    } else {
      assert a + b == b;
    }
  }

  /** The result of the input handler: the new child list and the number of
      spacers it has created so far. */
  datatype Fixed = Fixed(content: seq<Node>, created: nat)

  /** The input handler's fix-up, as written: it compares against the
      ORIGINAL spacer only. When that spacer is a child but not the first,
      it is moved to the front; when it is no child at all, a new spacer is
      created and prepended, whatever the list already begins with. */
  function FixSpacer(c: seq<Node>, created: nat): (r: Fixed)
    ensures |r.content| > 0 && IsSpacer(r.content[0])
    ensures OriginalSpacer in c ==> r.content[0] == OriginalSpacer && r.created == created
    ensures multiset(c)[OriginalSpacer] == 1 ==>
              r.content == [OriginalSpacer] + Without(c, OriginalSpacer)
              && multiset(r.content) == multiset(c)
    ensures OriginalSpacer !in c ==>
              r.content == [CreatedSpacer(created)] + c && r.created == created + 1
  {
    if OriginalSpacer in c && c[0] == OriginalSpacer then
      assert multiset(c)[OriginalSpacer] == 1 ==> c == [OriginalSpacer] + Without(c, OriginalSpacer) by {
        if multiset(c)[OriginalSpacer] == 1 {
          assert c == [c[0]] + c[1..];
          assert multiset(c) == multiset{c[0]} + multiset(c[1..]);
          assert OriginalSpacer !in c[1..];
          WithoutAbsent(c[1..], OriginalSpacer);
        }
      }
      Fixed(c, created)
    else if OriginalSpacer in c then
      Fixed([OriginalSpacer] + Without(c, OriginalSpacer), created)
    else
      Fixed([CreatedSpacer(created)] + c, created + 1)
  }

  /** Removing a node that is not there changes nothing. */
  lemma {:induction false} WithoutAbsent(c: seq<Node>, x: Node)
    requires x !in c
    ensures Without(c, x) == c
    decreases |c|
  {
    if c != [] {
      WithoutAbsent(c[1..], x);
      assert c == [c[0]] + c[1..];
    }
  }

  /** The clear action: a confirmed clear empties the region and puts the
      original spacer back as its only child; a declined one changes nothing. */
  function Clear(c: seq<Node>, confirmed: bool): (r: seq<Node>)
    ensures confirmed ==> r == [OriginalSpacer]
    ensures !confirmed ==> r == c
  {
    if confirmed then [OriginalSpacer] else c
  }

  /** Once the original spacer is gone, every input event prepends one more
      spacer, even when the list already starts with a spacer: the fix-up
      is not idempotent. */
  lemma FixSpacerAccumulates(c: seq<Node>, created: nat)
    requires OriginalSpacer !in c
    ensures FixSpacer(FixSpacer(c, created).content, created + 1).content
            == [CreatedSpacer(created + 1), CreatedSpacer(created)] + c
  {
    var once := FixSpacer(c, created);
    assert OriginalSpacer !in once.content;
  }

  /** A concrete instance: the user has deleted the spacer and typed one
      paragraph; two input events later the region starts with two spacers. */
  lemma FixSpacerNotIdempotent()
    ensures var once := FixSpacer([Typed(0)], 0);
            FixSpacer(once.content, once.created).content != once.content
  {
    var once := FixSpacer([Typed(0)], 0);
    assert once.content == [CreatedSpacer(0), Typed(0)];
    var twice := FixSpacer(once.content, once.created);
    assert twice.content == [CreatedSpacer(1), CreatedSpacer(0), Typed(0)];
    assert |twice.content| != |once.content|;
  }

  /** The fix-up as evidently intended: the handler's spacer reference is
      re-bound to the spacer it creates, so the region keeps a single
      pinned spacer. Returns the new list and the (possibly new) reference. */
  function FixBoundSpacer(c: seq<Node>, spacer: Node, created: nat): (r: (Fixed, Node))
    ensures |r.0.content| > 0 && r.0.content[0] == r.1
    ensures r.1 == spacer || r.1 == CreatedSpacer(created)
    ensures spacer in c ==> r.1 == spacer && r.0.content[0] == spacer && r.0.created == created
    ensures spacer !in c ==>
              r.0.content == [CreatedSpacer(created)] + c && r.1 == CreatedSpacer(created)
              && r.0.created == created + 1
  {
    if spacer in c && c[0] == spacer then (Fixed(c, created), spacer)
    else if spacer in c then (Fixed([spacer] + Without(c, spacer), created), spacer)
    else (Fixed([CreatedSpacer(created)] + c, created + 1), CreatedSpacer(created))
  }

  /** With re-binding, an input event that leaves the fixed list alone
      changes nothing: a second fix-up is the identity. */
  lemma FixBoundSpacerIdempotent(c: seq<Node>, spacer: Node, created: nat)
    ensures var (once, bound) := FixBoundSpacer(c, spacer, created);
            FixBoundSpacer(once.content, bound, once.created) == (once, bound)
  {
    var (once, bound) := FixBoundSpacer(c, spacer, created);
    assert once.content[0] == bound;
  }

  /** The computed text style: font size and the derived line height, both
      in pixels. */
  datatype Typography = Typography(fontPx: int, lineHeightPx: int)

  /** The font-size rule: the size is applied as is and the line height
      published to the back card is twice the size. */
  function FontRule(size: int): (t: Typography)
    ensures t.fontPx == size
    ensures t.lineHeightPx == 2 * t.fontPx
  {
    Typography(size, size * 2)
  }

  /** The edit button's label in viewing mode ("edit") and in editing mode ("exit"). */
  const EditLabel: string := "编辑"
  const ExitLabel: string := "退出"

  /** Everything the edit-mode toggle writes: button label, button "active"
      class, card "flipped" class, and whether the info panel and the tool
      panel are displayed. */
  datatype Visuals = Visuals(caption: string, buttonActive: bool, flipped: bool,
                             infoShown: bool, toolShown: bool)

  /** The visuals of each of the two modes. */
  function VisualsFor(editing: bool): (v: Visuals)
    ensures v.infoShown != v.toolShown
    ensures v.toolShown == editing && v.buttonActive == editing && v.flipped == editing
    ensures v.caption == if editing then ExitLabel else EditLabel
  {
    if editing then Visuals(ExitLabel, true, true, false, true)
    else Visuals(EditLabel, false, false, true, false)
  }

  /** The two modes look different, so the visuals determine the mode. */
  lemma VisualsDetermineMode(a: bool, b: bool)
    ensures VisualsFor(a) == VisualsFor(b) <==> a == b
  {
  }
}

=== FILE: exhibition.dfy ===
/** The whole page as one immutable state and one pure transition per UI
    event. Timers, image loads and dialogs become events or event
    parameters: the 400 ms unlock timer is the `Unlock` event, each
    finished image load is an `ImageLoaded` event, and the clear dialog's
    answer is a boolean. */
module Exhibition {
  import opened Wrappers
  import opened Gallery
  import opened Editor
  import Export

  /** Start-up progress: the data file is still being fetched; it loaded and
      the handlers are bound; or start-up failed and they never will be. */
  datatype Phase = Fetching | Ready | Failed

  /** The page. `nav` holds the "active" flag of each rendered navigation
      entry; `pendingLoads` the records whose image loads have started and
      not finished, in start order; `timers` the unlock timers not yet
      fired; `sizeControl` the current value of the font-size control;
      `typography` the inline font size and line height, `None` while the
      stylesheet's own values apply; `content` the editable region's child
      list; `spacersCreated` how many spacers the input handler has made. */
  datatype Page = Page(
    phase: Phase,
    postcards: seq<Record>,
    currentIndex: int,
    isAnimating: bool,
    isEditMode: bool,
    nav: seq<bool>,
    pendingLoads: seq<Record>,
    timers: nat,
    display: Display,
    visuals: Visuals,
    sizeControl: int,
    typography: Option<Typography>,
    content: seq<Node>,
    spacersCreated: nat)

  datatype Event =
    | DataLoaded(data: Option<seq<Record>>)   // the start-up fetch settles; None: fetch or parse failed
    | Wheel(deltaY: real)
    | NavClick(index: int)                    // click on the navigation entry at `index`
    | Unlock                                  // an unlock timer fires
    | ImageLoaded(k: nat)                     // the k-th pending image load finishes
    | EditToggle
    | SizeInput(size: int)
    | Input(edited: seq<Node>)                // the user's edit leaves `edited` as the child list
    | ClearClick(confirmed: bool)

  /** The page as the markup delivers it: no data, viewing mode, the
      placeholder display and the original spacer as the region's only child. */
  function Initial(sizeControl: int): (s: Page)
    ensures s.phase == Fetching && s.postcards == [] && !s.isAnimating && !s.isEditMode
    ensures s.content == [OriginalSpacer]
  {
    Page(Fetching, [], 0, false, false, [], [], 0, Markup, VisualsFor(false),
         sizeControl, None, [OriginalSpacer], 0)
  }

  /** Start-up once the fetch settles. On failure only the title changes.
      On success the records are installed, edit mode is reset, the index
      is 0, the navigation list is rendered and the first image load starts;
      an empty list makes that load throw, which the start-up catches like a
      failed fetch. Only a non-empty list binds the handlers and applies the
      font-size control. */
  function Init(s: Page, data: Option<seq<Record>>): (t: Page)
    ensures data.None? ==> t == s.(phase := Failed, display := WithTitle(s.display, LoadErrorTitle))
    ensures data == Some([]) ==>
              t == s.(phase := Failed, display := WithTitle(s.display, LoadErrorTitle),
                      postcards := [], currentIndex := 0, isEditMode := false, nav := [])
    ensures data.Some? && data.value != [] ==>
              && t.phase == Ready && t.postcards == data.value
              && t.currentIndex == 0 && !t.isEditMode
              && ExactlyActive(t.nav, 0)
              && t.pendingLoads == s.pendingLoads + [data.value[0]]
              && t.typography == Some(FontRule(s.sizeControl))
              && t == s.(phase := Ready, postcards := data.value, currentIndex := 0,
                         isEditMode := false, nav := t.nav, pendingLoads := t.pendingLoads,
                         typography := t.typography)
  {
    match data
    case None => s.(phase := Failed, display := WithTitle(s.display, LoadErrorTitle))
    case Some(records) =>
      var rendered := s.(postcards := records, isEditMode := false, currentIndex := 0,
                         nav := RenderNav(|records|, 0));
      match StartLoad(records, 0)
      case None => rendered.(phase := Failed, display := WithTitle(s.display, LoadErrorTitle))
      case Some(first) =>
        rendered.(pendingLoads := s.pendingLoads + [first], phase := Ready,
                  typography := Some(FontRule(s.sizeControl)))
  }

  /** The index change, guarded by the animation lock. When unlocked it
      takes the lock, moves the active flag, sets the index and starts the
      image load; only when the load started is the unlock timer armed (an
      index without a record throws first). Edit mode, the display and the
      editor are never touched. */
  function ChangeIndex(s: Page, index: int): (t: Page)
    ensures s.isAnimating ==> t == s
    ensures !s.isAnimating ==> t.currentIndex == index && t.isAnimating
    ensures !s.isAnimating && 0 <= index < |s.postcards| ==>
              t.pendingLoads == s.pendingLoads + [s.postcards[index]] && t.timers == s.timers + 1
    ensures t.isEditMode == s.isEditMode && t.content == s.content && t.display == s.display
    ensures t.visuals == s.visuals && t.typography == s.typography && t.postcards == s.postcards
    ensures t.phase == s.phase
    ensures !s.isAnimating ==>
              t == s.(isAnimating := true, currentIndex := index,
                      nav := MoveActive(s.nav, s.currentIndex, index),
                      pendingLoads := t.pendingLoads, timers := t.timers)
    ensures !s.isAnimating && !(0 <= index < |s.postcards|) ==>
              t.pendingLoads == s.pendingLoads && t.timers == s.timers
  {
    if s.isAnimating then s
    else
      var moved := s.(isAnimating := true, nav := MoveActive(s.nav, s.currentIndex, index),
                      currentIndex := index);
      match StartLoad(s.postcards, index)
      case None => moved
      case Some(r) => moved.(pendingLoads := s.pendingLoads + [r], timers := s.timers + 1)
  }

  /** The wheel handler: ignored before data arrives and while the lock is
      held; otherwise one entry down or up, circularly. */
  function OnWheel(s: Page, deltaY: real): (t: Page)
    ensures |s.postcards| == 0 || s.isAnimating ==> t == s
    ensures |s.postcards| > 0 && !s.isAnimating && 0 <= s.currentIndex < |s.postcards| ==>
              && t.isAnimating
              && 0 <= t.currentIndex < |s.postcards|
              && t.currentIndex == (if deltaY > 0.0 then (s.currentIndex + 1) % |s.postcards|
                                    else (s.currentIndex - 1 + |s.postcards|) % |s.postcards|)
              && t.pendingLoads == s.pendingLoads + [s.postcards[t.currentIndex]]
  {
    if |s.postcards| == 0 || s.isAnimating then s
    else ChangeIndex(s, WheelTarget(s.currentIndex, |s.postcards|, deltaY))
  }

  /** A click on a navigation entry: the already-active entry does nothing. */
  function OnNavClick(s: Page, index: int): (t: Page)
    ensures index == s.currentIndex ==> t == s
    ensures index != s.currentIndex && !s.isAnimating ==> t.currentIndex == index && t.isAnimating
    ensures s.isAnimating ==> t == s
    ensures index != s.currentIndex ==> t == ChangeIndex(s, index)
  {
    if s.currentIndex != index then ChangeIndex(s, index) else s
  }

  /** The unlock timer fires and releases the lock. */
  function OnUnlock(s: Page): (t: Page)
    ensures s.timers > 0 ==> !t.isAnimating && t.timers == s.timers - 1
    ensures s.timers > 0 ==> t == s.(timers := s.timers - 1, isAnimating := false)
    ensures s.timers == 0 ==> t == s
    ensures t.currentIndex == s.currentIndex && t.display == s.display && t.content == s.content
  {
    if s.timers > 0 then s.(timers := s.timers - 1, isAnimating := false) else s
  }

  /** The k-th pending image load finishes: image, title and description
      are all taken from the record captured when that load started, and
      the load is no longer pending. */
  function OnImageLoaded(s: Page, k: nat): (t: Page)
    ensures k < |s.pendingLoads| ==>
              && t.display == CardOf(s.pendingLoads[k])
              && t.pendingLoads == s.pendingLoads[..k] + s.pendingLoads[k + 1..]
    ensures k < |s.pendingLoads| ==>
              t == s.(display := CardOf(s.pendingLoads[k]),
                      pendingLoads := s.pendingLoads[..k] + s.pendingLoads[k + 1..])
    ensures k >= |s.pendingLoads| ==> t == s
    ensures t.currentIndex == s.currentIndex && t.isAnimating == s.isAnimating
  {
    if k < |s.pendingLoads| then
      s.(display := CardOf(s.pendingLoads[k]),
         pendingLoads := s.pendingLoads[..k] + s.pendingLoads[k + 1..])
    else s
  }

  /** The edit-mode toggle: flips the mode, writes the visuals of the new
      mode and, on entering edit mode, re-applies the font-size control. */
  function OnEditToggle(s: Page): (t: Page)
    ensures t.isEditMode == !s.isEditMode
    ensures t.visuals == VisualsFor(t.isEditMode)
    ensures t.visuals.infoShown != t.visuals.toolShown
    ensures t.isEditMode ==> t.typography == Some(FontRule(s.sizeControl))
    ensures !t.isEditMode ==> t.typography == s.typography
    ensures t == s.(isEditMode := t.isEditMode, visuals := t.visuals, typography := t.typography)
  {
    var editing := !s.isEditMode;
    s.(isEditMode := editing, visuals := VisualsFor(editing),
       typography := if editing then Some(FontRule(s.sizeControl)) else s.typography)
  }

  /** The font-size control changes; once the handlers are bound the new
      size and its line height are applied. */
  function OnSizeInput(s: Page, size: int): (t: Page)
    ensures t.sizeControl == size
    ensures s.phase == Ready ==> t.typography == Some(FontRule(size))
    ensures s.phase != Ready ==> t.typography == s.typography
    ensures t == s.(sizeControl := size, typography := t.typography)
  {
    s.(sizeControl := size,
       typography := if s.phase == Ready then Some(FontRule(size)) else s.typography)
  }

  /** An edit of the region, followed (once bound) by the spacer fix-up. */
  function OnInput(s: Page, edited: seq<Node>): (t: Page)
    ensures s.phase == Ready ==>
              t.content == FixSpacer(edited, s.spacersCreated).content
              && t.spacersCreated == FixSpacer(edited, s.spacersCreated).created
    ensures s.phase == Ready ==> |t.content| > 0 && IsSpacer(t.content[0])
    ensures s.phase != Ready ==> t.content == edited && t.spacersCreated == s.spacersCreated
    ensures t == s.(content := t.content, spacersCreated := t.spacersCreated)
  {
    if s.phase == Ready then
      var f := FixSpacer(edited, s.spacersCreated);
      s.(content := f.content, spacersCreated := f.created)
    else s.(content := edited)
  }

  /** The clear button, once bound. */
  function OnClear(s: Page, confirmed: bool): (t: Page)
    ensures s.phase == Ready && confirmed ==> t == s.(content := [OriginalSpacer])
    ensures !(s.phase == Ready && confirmed) ==> t == s
  {
    if s.phase == Ready then s.(content := Clear(s.content, confirmed)) else s
  }

  /** One event. Start-up runs once; a click needs a rendered entry; the
      edit, clear and export controls act only once bound. */
  function Step(s: Page, e: Event): Page
  {
    match e
    case DataLoaded(data) => if s.phase == Fetching then Init(s, data) else s
    case Wheel(deltaY) => OnWheel(s, deltaY)
    case NavClick(index) => if 0 <= index < |s.nav| then OnNavClick(s, index) else s
    case Unlock => OnUnlock(s)
    case ImageLoaded(k) => OnImageLoaded(s, k)
    case EditToggle => if s.phase == Ready then OnEditToggle(s) else s
    case SizeInput(size) => OnSizeInput(s, size)
    case Input(edited) => OnInput(s, edited)
    case ClearClick(confirmed) => OnClear(s, confirmed)
  }

  /** The page after a sequence of events. */
  function Run(s: Page, events: seq<Event>): Page
    decreases |events|
  {
    if events == [] then s else Run(Step(s, events[0]), events[1..])
  }

  /** The export button: nothing before the handlers are bound, otherwise
      the export of the current postcard. */
  function OnExport(s: Page, rasterizerPresent: bool, rasterizerSucceeds: bool): (o: Export.Outcome)
    ensures s.phase != Ready ==> o.downloads == [] && o.alerts == []
    ensures s.phase == Ready && !rasterizerPresent ==> o.downloads == [] && |o.alerts| == 1
    ensures forall d :: d in o.downloads ==> Export.HasNoWhitespace(d.name)
    ensures s.phase == Ready ==>
              o == Export.ExportCard(s.postcards, s.currentIndex, rasterizerPresent, rasterizerSucceeds)
  {
    if s.phase == Ready then
      Export.ExportCard(s.postcards, s.currentIndex, rasterizerPresent, rasterizerSucceeds)
    else Export.Outcome([], [])
  }

  /** What every reachable page satisfies. */
  ghost predicate Inv(s: Page)
  {
    && (s.phase != Ready ==>
          s.postcards == [] && s.nav == [] && s.pendingLoads == [] && s.typography == None
          && !s.isAnimating && !s.isEditMode)
    && (s.phase == Fetching ==> s.display == Markup)
    && (s.phase == Failed ==> s.display == MarkupWithTitle(LoadErrorTitle))
    && (s.phase == Ready ==>
          0 <= s.currentIndex < |s.postcards| && |s.nav| == |s.postcards|
          && ExactlyActive(s.nav, s.currentIndex)
          && s.typography == Some(FontRule(s.sizeControl)))
    && s.timers == (if s.isAnimating then 1 else 0)
    && (forall k :: 0 <= k < |s.pendingLoads| ==> s.pendingLoads[k] in s.postcards)
    && (s.display.Card? ==> exists j :: 0 <= j < |s.postcards| && s.display == CardOf(s.postcards[j]))
    && s.visuals == VisualsFor(s.isEditMode)
    && (s.typography.Some? ==> s.typography.value.lineHeightPx == 2 * s.typography.value.fontPx)
  }

  lemma InitialInv(sizeControl: int)
    ensures Inv(Initial(sizeControl))
  {
  }

  lemma StepPreservesInv(s: Page, e: Event)
    requires Inv(s)
    ensures Inv(Step(s, e))
  {
    match e
    case DataLoaded(data) => DataLoadedPreservesInv(s, data);
    case Wheel(deltaY) => WheelPreservesInv(s, deltaY);
    case NavClick(index) =>
      if 0 <= index < |s.nav| {
        NavClickPreservesInv(s, index);
      }
    case Unlock => UnlockPreservesInv(s);
    case ImageLoaded(k) => ImageLoadedPreservesInv(s, k);
    case EditToggle => EditTogglePreservesInv(s);
    case SizeInput(size) => SizeInputPreservesInv(s, size);
    case Input(edited) => InputPreservesInv(s, edited);
    case ClearClick(confirmed) => ClearPreservesInv(s, confirmed);
  }

  lemma DataLoadedPreservesInv(s: Page, data: Option<seq<Record>>)
    requires Inv(s)
    ensures Inv(Step(s, DataLoaded(data)))
  {
  }

  lemma UnlockPreservesInv(s: Page)
    requires Inv(s)
    ensures Inv(Step(s, Unlock))
  {
  }

  lemma EditTogglePreservesInv(s: Page)
    requires Inv(s)
    ensures Inv(Step(s, EditToggle))
  {
  }

  lemma SizeInputPreservesInv(s: Page, size: int)
    requires Inv(s)
    ensures Inv(Step(s, SizeInput(size)))
  {
  }

  lemma InputPreservesInv(s: Page, edited: seq<Node>)
    requires Inv(s)
    ensures Inv(Step(s, Input(edited)))
  {
  }

  lemma ClearPreservesInv(s: Page, confirmed: bool)
    requires Inv(s)
    ensures Inv(Step(s, ClearClick(confirmed)))
  {
  }

  lemma WheelPreservesInv(s: Page, deltaY: real)
    requires Inv(s)
    ensures Inv(Step(s, Wheel(deltaY)))
  {
    if |s.postcards| > 0 && !s.isAnimating {
      assert s.phase == Ready;
      MoveActiveKeepsOneActive(s.nav, s.currentIndex, OnWheel(s, deltaY).currentIndex);
    }
  }

  lemma NavClickPreservesInv(s: Page, index: int)
    requires Inv(s) && 0 <= index < |s.nav|
    ensures Inv(Step(s, NavClick(index)))
  {
    if index != s.currentIndex && !s.isAnimating {
      MoveActiveKeepsOneActive(s.nav, s.currentIndex, index);
    }
  }

  /** A finished load shows a record of the gallery and leaves only records
      of the gallery pending. */
  lemma ImageLoadedPreservesInv(s: Page, k: nat)
    requires Inv(s)
    ensures Inv(Step(s, ImageLoaded(k)))
  {
    var t := OnImageLoaded(s, k);
    if k < |s.pendingLoads| {
      var r := s.pendingLoads[k];
      assert r in s.postcards;
      var j :| 0 <= j < |s.postcards| && s.postcards[j] == r;
      assert t.display == CardOf(s.postcards[j]);
      forall i | 0 <= i < |t.pendingLoads|
        ensures t.pendingLoads[i] in t.postcards
      {
        if i < k {
          assert t.pendingLoads[i] == s.pendingLoads[i];
        } else {
          assert t.pendingLoads[i] == s.pendingLoads[i + 1];
        }
      }
    }
  }

  lemma {:induction false} RunPreservesInv(s: Page, events: seq<Event>)
    requires Inv(s)
    ensures Inv(Run(s, events))
    decreases |events|
  {
    if events != [] {
      StepPreservesInv(s, events[0]);
      RunPreservesInv(Step(s, events[0]), events[1..]);
    }
  }

  /** Every page reachable from start-up satisfies the invariant: once the
      data is loaded the index is in range and exactly its entry is active;
      the lock is held exactly while one unlock timer is armed; the display
      is the placeholder or one whole record; exactly one of the two panels
      is shown; the line height is twice the font size. */
  lemma ReachableInv(sizeControl: int, events: seq<Event>)
    ensures var s := Run(Initial(sizeControl), events);
            && Inv(s)
            && (s.phase == Ready ==> 0 <= s.currentIndex < |s.postcards|)
            && s.visuals.infoShown != s.visuals.toolShown
            && (s.display.Card? ==> exists j :: 0 <= j < |s.postcards| && s.display == CardOf(s.postcards[j]))
            && (s.typography.Some? ==> s.typography.value.lineHeightPx == 2 * s.typography.value.fontPx)
  {
    InitialInv(sizeControl);
    RunPreservesInv(Initial(sizeControl), events);
  }

  /** A wheel event from a reachable page, with data loaded and the lock
      free, requests the next or previous index circularly, takes the lock
      and starts that record's image load; edit mode, display and editor are
      untouched. */
  lemma WheelFromReachable(s: Page, deltaY: real)
    requires Inv(s) && |s.postcards| > 0 && !s.isAnimating
    ensures var t := Step(s, Wheel(deltaY));
            && t.currentIndex == (if deltaY > 0.0 then (s.currentIndex + 1) % |s.postcards|
                                  else (s.currentIndex - 1 + |s.postcards|) % |s.postcards|)
            && 0 <= t.currentIndex < |s.postcards| && t.isAnimating && t.timers == 1
            && t.pendingLoads == s.pendingLoads + [s.postcards[t.currentIndex]]
            && t.isEditMode == s.isEditMode && t.content == s.content && t.display == s.display
  {
    assert s.phase == Ready;
  }

  /** The lock is released only by the unlock timer: every other event
      leaves a held lock held. */
  lemma OnlyUnlockReleases(s: Page, e: Event)
    requires s.isAnimating && !e.Unlock?
    ensures Step(s, e).isAnimating
  {
  }

  /** Clicking the active navigation entry changes nothing at all. */
  lemma ActiveNavClickIsNoOp(s: Page)
    ensures Step(s, NavClick(s.currentIndex)) == s
  {
  }

  /** Toggling edit mode twice on a reachable, loaded page restores the
      whole page: the typography re-applied on entry is the one the
      font-size control already gave. */
  lemma ToggleTwiceRestores(s: Page)
    requires Inv(s) && s.phase == Ready
    ensures Step(Step(s, EditToggle), EditToggle) == s
  {
  }

  /** Repeating the same edit `n` times: the user keeps typing inside the
      existing nodes, so the child list the browser reports is the current one. */
  function KeepTyping(s: Page, n: nat): (t: Page)
    decreases n
  {
    if n == 0 then s else KeepTyping(Step(s, Input(s.content)), n - 1)
  }

  /** The spacers a run of `n` input events creates, newest first. */
  function CreatedRun(first: nat, n: nat): (r: seq<Node>)
    ensures |r| == n
    ensures OriginalSpacer !in r
    decreases n
  {
    if n == 0 then [] else [CreatedSpacer(first + n - 1)] + CreatedRun(first, n - 1)
  }

  /** Once the original spacer has left the region, each of `n` input
      events prepends one more freshly created spacer: nothing re-binds the
      handler's reference. */
  lemma {:induction false} SpacersAccumulate(s: Page, n: nat)
    requires s.phase == Ready && OriginalSpacer !in s.content
    ensures KeepTyping(s, n).content == CreatedRun(s.spacersCreated, n) + s.content
    ensures KeepTyping(s, n).spacersCreated == s.spacersCreated + n
    decreases n
  {
    if n > 0 {
      var s1 := Step(s, Input(s.content));
      TypingPrependsSpacer(s);
      SpacersAccumulate(s1, n - 1);
      CreatedRunPrepend(s.spacersCreated, n, s.content);
    }
  }

  /** One input event without the original spacer prepends one created
      spacer. */
  lemma TypingPrependsSpacer(s: Page)
    requires s.phase == Ready && OriginalSpacer !in s.content
    ensures var t := Step(s, Input(s.content));
            && t.phase == Ready
            && t.content == [CreatedSpacer(s.spacersCreated)] + s.content
            && t.spacersCreated == s.spacersCreated + 1
            && OriginalSpacer !in t.content
  {
  }

  /** The spacer created first ends up last in the run. */
  lemma CreatedRunPrepend(first: nat, n: nat, c: seq<Node>)
    requires n > 0
    ensures CreatedRun(first + 1, n - 1) + ([CreatedSpacer(first)] + c) == CreatedRun(first, n) + c
  {
    CreatedRunShift(first, n);
    assert CreatedRun(first + 1, n - 1) + ([CreatedSpacer(first)] + c)
           == (CreatedRun(first + 1, n - 1) + [CreatedSpacer(first)]) + c;
  }

  lemma {:induction false} CreatedRunShift(first: nat, n: nat)
    requires n > 0
    ensures CreatedRun(first + 1, n - 1) + [CreatedSpacer(first)] == CreatedRun(first, n)
    decreases n
  {
    if n > 1 {
      CreatedRunShift(first, n - 1);
      assert CreatedRun(first + 1, n - 1) == [CreatedSpacer(first + n - 1)] + CreatedRun(first + 1, n - 2);
    }
  }

  /** A confirmed clear brings the original spacer back, and from then on an
      edit that leaves the list alone adds no spacer. */
  lemma ClearRestoresOriginal(s: Page)
    requires s.phase == Ready
    ensures var c := Step(s, ClearClick(true));
            && c.content == [OriginalSpacer]
            && Step(c, Input(c.content)) == c
  {
    var c := Step(s, ClearClick(true));
    assert multiset(c.content)[OriginalSpacer] == 1;
  }

  /** Two records A and B: after start-up the
      first load shows A; a wheel-down selects B and its load shows B; after
      the lock is released another wheel-down wraps back to A. */
  lemma TwoCardExample(sizeControl: int)
    ensures var a := Record("A", "d1", "a.png");
            var b := Record("B", "d2", "b.png");
            var s1 := Run(Initial(sizeControl), [DataLoaded(Some([a, b])), ImageLoaded(0)]);
            var s2 := Run(s1, [Wheel(1.0), ImageLoaded(0)]);
            var s3 := Run(s2, [Unlock, Wheel(1.0), ImageLoaded(0)]);
            && s1.display == CardOf(a) && s1.currentIndex == 0
            && s2.display == CardOf(b) && s2.currentIndex == 1
            && s3.display == CardOf(a) && s3.currentIndex == 0
  {
    var a := Record("A", "d1", "a.png");
    var b := Record("B", "d2", "b.png");
    var s0 := Initial(sizeControl);
    var l := Step(s0, DataLoaded(Some([a, b])));
    assert l.pendingLoads == [a] && l.currentIndex == 0 && !l.isAnimating;
    var s1 := Step(l, ImageLoaded(0));
    assert Run(s0, [DataLoaded(Some([a, b])), ImageLoaded(0)]) == Run(l, [ImageLoaded(0)]);
    assert s1.pendingLoads == [];
    var w1 := Step(s1, Wheel(1.0));
    assert w1.currentIndex == 1 && w1.pendingLoads == [b] && w1.timers == 1;
    var s2 := Step(w1, ImageLoaded(0));
    assert Run(s1, [Wheel(1.0), ImageLoaded(0)]) == Run(w1, [ImageLoaded(0)]);
    var u := Step(s2, Unlock);
    assert !u.isAnimating;
    var w2 := Step(u, Wheel(1.0));
    assert w2.currentIndex == 0 && w2.pendingLoads == [a];
    var s3 := Step(w2, ImageLoaded(0));
    assert Run(s2, [Unlock, Wheel(1.0), ImageLoaded(0)]) == Run(u, [Wheel(1.0), ImageLoaded(0)]);
    assert Run(u, [Wheel(1.0), ImageLoaded(0)]) == Run(w2, [ImageLoaded(0)]);
  }

  /** Loads finish in any order, so the display is a whole record but not
      necessarily the current one: scroll to B before A's first load has
      finished, let B's load finish first, and A's late load overwrites it. */
  lemma LateLoadShowsStaleRecord(sizeControl: int)
    ensures var a := Record("A", "d1", "a.png");
            var b := Record("B", "d2", "b.png");
            var s := Run(Initial(sizeControl),
                         [DataLoaded(Some([a, b])), Wheel(1.0), ImageLoaded(1), ImageLoaded(0)]);
            && s.currentIndex == 1 && s.display == CardOf(a) && s.display != CardOf(s.postcards[1])
  {
    var a := Record("A", "d1", "a.png");
    var b := Record("B", "d2", "b.png");
    var l := Step(Initial(sizeControl), DataLoaded(Some([a, b])));
    assert l.pendingLoads == [a] && l.currentIndex == 0 && !l.isAnimating;
    var w := Step(l, Wheel(1.0));
    assert w.currentIndex == 1 && w.pendingLoads == [a, b];
    var f1 := Step(w, ImageLoaded(1));
    assert f1.display == CardOf(b) && f1.pendingLoads == [a];
    var f0 := Step(f1, ImageLoaded(0));
    assert f0.display == CardOf(a);
    assert Run(Initial(sizeControl), [DataLoaded(Some([a, b])), Wheel(1.0), ImageLoaded(1), ImageLoaded(0)])
           == Run(l, [Wheel(1.0), ImageLoaded(1), ImageLoaded(0)]);
    assert Run(l, [Wheel(1.0), ImageLoaded(1), ImageLoaded(0)]) == Run(w, [ImageLoaded(1), ImageLoaded(0)]);
    assert Run(w, [ImageLoaded(1), ImageLoaded(0)]) == Run(f1, [ImageLoaded(0)]);
  }
}

=== FILE: export.dfy ===
/** The export action: the file names of the two downloads and which
    downloads and alerts one invocation produces. The rasterisation itself
    is the foreign library's business and appears only as its outcome. */
module Export {
  import opened Gallery

  /** The characters the regular-expression class `\s` matches in
      ECMAScript, its WhiteSpace and LineTerminator productions (ECMA-262):
      tab, line tab, form feed, space, no-break space, zero-width no-break
      space, the other Unicode space separators, line feed, carriage
      return, line separator and paragraph separator. */
  predicate IsJsWhitespace(c: char)
  {
    || c == '\t' || c == '\n' || c == '\U{B}' || c == '\U{C}' || c == '\r' || c == ' '
    || c == '\U{A0}' || c == '\U{1680}' || ('\U{2000}' <= c <= '\U{200A}')
    || c == '\U{2028}' || c == '\U{2029}' || c == '\U{202F}' || c == '\U{205F}'
    || c == '\U{3000}' || c == '\U{FEFF}'
  }

  predicate HasNoWhitespace(s: string)
  {
    forall i :: 0 <= i < |s| ==> !IsJsWhitespace(s[i])
  }

  /** The title with every whitespace character removed (a global
      `replace(/\s/g, '')`): no whitespace is left, every other character is
      kept, and a title without whitespace comes back unchanged. */
  function StripWhitespace(s: string): (r: string)
    ensures HasNoWhitespace(r)
    ensures forall c :: c in r <==> c in s && !IsJsWhitespace(c)
    ensures HasNoWhitespace(s) ==> r == s
    ensures |r| <= |s|
    decreases |s|
  {
    if s == [] then []
    else if IsJsWhitespace(s[0]) then StripWhitespace(s[1..])
    else (assert s == [s[0]] + s[1..]; [s[0]] + StripWhitespace(s[1..]))
  }

  /** Stripping works piecewise: the stripped concatenation is the
      concatenation of the stripped parts, so the order of the kept
      characters is the order in the title. */
  lemma {:induction false} StripWhitespaceConcat(a: string, b: string)
    ensures StripWhitespace(a + b) == StripWhitespace(a) + StripWhitespace(b)
    decreases |a|
  {
    if a != [] {
      var ab := a + b;
      assert ab[0] == a[0];
      assert ab[1..] == a[1..] + b;
      StripWhitespaceConcat(a[1..], b);
      if IsJsWhitespace(a[0]) {
        assert StripWhitespace(ab) == StripWhitespace(a[1..] + b);
        assert StripWhitespace(a) == StripWhitespace(a[1..]);
      } else {
        assert StripWhitespace(ab) == [a[0]] + StripWhitespace(a[1..] + b);
        assert StripWhitespace(a) == [a[0]] + StripWhitespace(a[1..]);
      }
    } else {
      assert a + b == b;
    }
  }

  /** Stripping twice is stripping once. */
  lemma StripWhitespaceIdempotent(s: string)
    ensures StripWhitespace(StripWhitespace(s)) == StripWhitespace(s)
  {
  }

  const FrontSuffix: string := "_正面.png"
  const BackSuffix: string := "_背面.png"

  /** The download name of the front image. */
  function FrontName(title: string): (name: string)
    ensures HasNoWhitespace(name)
    ensures name == StripWhitespace(title) + FrontSuffix
  {
    var stem := StripWhitespace(title);
    assert HasNoWhitespace(FrontSuffix);
    stem + FrontSuffix
  }

  /** The download name of the back snapshot. */
  function BackName(title: string): (name: string)
    ensures HasNoWhitespace(name)
    ensures name == StripWhitespace(title) + BackSuffix
  {
    var stem := StripWhitespace(title);
    assert HasNoWhitespace(BackSuffix);
    stem + BackSuffix
  }

  /** The two names of one export share their stem and never coincide. */
  lemma FrontAndBackNamesDiffer(title: string)
    ensures FrontName(title) != BackName(title)
    ensures FrontName(title)[..|FrontName(title)| - |FrontSuffix|] == BackName(title)[..|BackName(title)| - |BackSuffix|]
  {
    var stem := StripWhitespace(title);
    assert FrontName(title)[|stem| + 1] != BackName(title)[|stem| + 1];
  }

  /** "Spring Day" exports as "SpringDay" followed by the front and the
      back suffix. */
  lemma SpringDayNames()
    ensures FrontName("Spring Day") == "SpringDay" + FrontSuffix
    ensures BackName("Spring Day") == "SpringDay" + BackSuffix
  {
    SpringDayStem();
  }

  /** The stem of "Spring Day". */
  lemma SpringDayStem()
    ensures StripWhitespace("Spring Day") == "SpringDay"
  {
    SpringDayWords();
    StripAroundSpace("Spring", "Day");
  }

  /** "Spring Day" is the two whitespace-free words "Spring" and "Day"
      joined by one space. */
  lemma SpringDayWords()
    ensures HasNoWhitespace("Spring") && HasNoWhitespace("Day")
    ensures "Spring" + " " + "Day" == "Spring Day"
    ensures "Spring" + "Day" == "SpringDay"
  {
  }

  /** Two whitespace-free words joined by one space strip to the two words
      written together. */
  lemma StripAroundSpace(a: string, c: string)
    requires HasNoWhitespace(a) && HasNoWhitespace(c)
    ensures StripWhitespace(a + " " + c) == a + c
  {
    assert a + " " + c == a + (" " + c);
    StripWhitespaceConcat(a, " " + c);
    StripLeadingSpace(c);
  }

  /** A leading space is dropped. */
  lemma StripLeadingSpace(c: string)
    ensures StripWhitespace(" " + c) == StripWhitespace(c)
  {
    var spaced := " " + c;
    assert spaced[1..] == c;
  }

  /** Where a download's bytes come from: the front image's own address, or
      the data URL of the rasterised back card. */
  datatype Source = FrontImage(url: string) | BackSnapshot
  datatype Download = Download(name: string, source: Source)

  /** What one export invocation produces: the downloads, in order, and the
      alerts shown. */
  datatype Outcome = Outcome(downloads: seq<Download>, alerts: seq<string>)

  const MissingRasterizerAlert: string := "html2canvas 未加载"
  const ExportFailedAlert: string := "图片生成失败"

  /** One export of the postcard at `current`. Without the rasterising
      library the action stops at once with one alert. Otherwise the front
      is downloaded, and the back is downloaded if rasterising succeeds or
      an alert is shown if it fails. An index with no record makes the
      handler throw before any download. */
  function ExportCard(postcards: seq<Record>, current: int,
                      rasterizerPresent: bool, rasterizerSucceeds: bool): (o: Outcome)
    ensures !rasterizerPresent ==> o == Outcome([], [MissingRasterizerAlert])
    ensures rasterizerPresent && 0 <= current < |postcards| ==>
              |o.downloads| >= 1
              && o.downloads[0] == Download(FrontName(postcards[current].title),
                                            FrontImage(postcards[current].img))
    ensures rasterizerPresent && 0 <= current < |postcards| && rasterizerSucceeds ==>
              o.downloads == [o.downloads[0], Download(BackName(postcards[current].title), BackSnapshot)]
              && o.alerts == []
    ensures rasterizerPresent && 0 <= current < |postcards| && !rasterizerSucceeds ==>
              |o.downloads| == 1 && o.alerts == [ExportFailedAlert]
    ensures forall d :: d in o.downloads ==> HasNoWhitespace(d.name)
  {
    if !rasterizerPresent then Outcome([], [MissingRasterizerAlert])
    else if !(0 <= current < |postcards|) then Outcome([], [])
    else
      var data := postcards[current];
      var front := Download(FrontName(data.title), FrontImage(data.img));
      if rasterizerSucceeds then
        Outcome([front, Download(BackName(data.title), BackSnapshot)], [])
      else
        Outcome([front], [ExportFailedAlert])
  }
}

=== FILE: gallery.dfy ===
/** The postcard gallery: the loaded records, the wheel's circular index
    arithmetic, the navigation list's "active" flags and the start of an
    image load for a selected postcard. */
module Gallery {
  import opened Wrappers

  /** One exhibit, as read from the data file. Its identity is its position
      in the loaded sequence. */
  datatype Record = Record(title: string, desc: string, img: string)

  /** What the image, title and description elements currently show:
      the page's own placeholder markup, that markup with only its title
      replaced, or the three fields written by an image-load completion. */
  datatype Display =
    | Markup
    | MarkupWithTitle(title: string)
    | Card(image: string, title: string, desc: string)

  /** The text written into the title element when loading the data fails. */
  const LoadErrorTitle: string := "数据加载失败"

  /** The display after an image-load completion for `r`: image, title and
      description all taken from the same record. */
  function CardOf(r: Record): (d: Display)
    ensures d.Card? && d.image == r.img && d.title == r.title && d.desc == r.desc
  {
    Card(r.img, r.title, r.desc)
  }

  /** Writes only the title element, leaving image and description as they were. */
  function WithTitle(d: Display, title: string): (e: Display)
    ensures !e.Markup? && e.title == title
    ensures d.Card? ==> e.Card? && e.image == d.image && e.desc == d.desc
    ensures !d.Card? ==> e == MarkupWithTitle(title)
  {
    match d
    case Card(image, _, desc) => Card(image, title, desc)
    case _ => MarkupWithTitle(title)
  }

  /** The index the wheel handler hands to the index change: the next entry
      for a positive vertical delta, the previous one for any other delta
      (zero included), wrapping at both ends. */
  function WheelTarget(current: int, count: int, deltaY: real): (next: int)
    ensures 0 <= current < count && deltaY > 0.0 ==> next == (current + 1) % count
    ensures 0 <= current < count && !(deltaY > 0.0) ==> next == (current - 1 + count) % count
    ensures 0 <= current < count ==> 0 <= next < count
  {
    var next := if deltaY > 0.0 then
                  (if current + 1 >= count then 0 else current + 1)
                else
                  (if current - 1 < 0 then count - 1 else current - 1);
    if 0 <= current < count then WrapArithmetic(current, count); next else next
  }

  /** The wheel handler's compare-and-reset wrap equals the modular step. */
  lemma WrapArithmetic(current: int, count: int)
    requires 0 <= current < count
    ensures (current + 1) % count == if current + 1 >= count then 0 else current + 1
    ensures (current - 1 + count) % count == if current - 1 < 0 then count - 1 else current - 1
  {
    if current + 1 < count {
      ModOfSmall(current + 1, count);
    } else {
      ModShift(0, count);
    }
    if current == 0 {
      ModOfSmall(count - 1, count);
    } else {
      ModShift(current - 1, count);
    }
  }

  lemma ModOfSmall(x: int, n: int)
    requires 0 <= x < n
    ensures x % n == x
  {
  }

  lemma ModShift(x: int, n: int)
    requires 0 <= x < n
    ensures (x + n) % n == x
  {
  }

  /** Scrolling down and then up (or up and then down) returns to the
      entry one started from. */
  lemma WheelStepsAreInverse(current: int, count: int, down: real, up: real)
    requires 0 <= current < count
    requires down > 0.0 && !(up > 0.0)
    ensures WheelTarget(WheelTarget(current, count, down), count, up) == current
    ensures WheelTarget(WheelTarget(current, count, up), count, down) == current
  {
    var next := WheelTarget(current, count, down);
    var prev := WheelTarget(current, count, up);
    if current + 1 == count {
      assert next == 0;
    } else {
      assert next == current + 1;
    }
    if current == 0 {
      assert prev == count - 1;
    } else {
      assert prev == current - 1;
    }
  }

  /** The navigation list marks exactly entry `k` as active. */
  ghost predicate ExactlyActive(nav: seq<bool>, k: int)
  {
    && 0 <= k < |nav|
    && forall i :: 0 <= i < |nav| ==> (nav[i] <==> i == k)
  }

  /** The flags a full render of the navigation list produces: one entry
      per postcard, active when its position is the current index. */
  function RenderNav(count: nat, current: int): (nav: seq<bool>)
    ensures |nav| == count
    ensures 0 <= current < count ==> ExactlyActive(nav, current)
    ensures !(0 <= current < count) ==> forall i :: 0 <= i < count ==> !nav[i]
  {
    seq(count, i => i == current)
  }

  /** The incremental update of an index change: the entry at the old index
      (if there is one) loses the active flag, then the entry at the new
      index (if there is one) gains it; no other entry is touched. */
  function MoveActive(nav: seq<bool>, from: int, to: int): (r: seq<bool>)
    ensures |r| == |nav|
    ensures forall i :: 0 <= i < |nav| && i != from && i != to ==> r[i] == nav[i]
    ensures 0 <= to < |nav| ==> r[to]
    ensures 0 <= from < |nav| && from != to ==> !r[from]
  {
    var cleared := if 0 <= from < |nav| then nav[from := false] else nav;
    if 0 <= to < |nav| then cleared[to := true] else cleared
  }

  /** Moving the active flag keeps "exactly one entry is active", now at
      the new index. */
  lemma MoveActiveKeepsOneActive(nav: seq<bool>, from: int, to: int)
    requires ExactlyActive(nav, from)
    requires 0 <= to < |nav|
    ensures ExactlyActive(MoveActive(nav, from, to), to)
  {
  }

  /** Starting an image load reads the record at `index`; `None` is the
      `undefined` element of an index outside the sequence, on which the
      image load throws before it starts. */
  function StartLoad(postcards: seq<Record>, index: int): (r: Option<Record>)
    ensures r.Some? <==> 0 <= index < |postcards|
    ensures r.Some? ==> r.value == postcards[index]
  {
    if 0 <= index < |postcards| then Some(postcards[index]) else None
  }
}

=== FILE: wrappers.dfy ===
/** The optional-value datatype shared by the other modules. */
module Wrappers {

  /** `None` stands for JavaScript's `undefined` (a missing array element,
      a failed fetch); `Some(v)` for a present value. */
  datatype Option<+T> = None | Some(value: T)
}
